=== FILE: README.md ===
# String calculator in Dafny

This project models `StringCalculator.add` from `string_calculator.py` and
proves what it promises. `add` takes an optional string and works in four
steps:

1. It reads an optional `//<delimiter>\n` header. The text between offset 2
   and the first newline becomes one extra delimiter, appended after the
   defaults `,` and space. Only the text after that newline is tokenized.
2. It splits the text on the delimiters, each matched as a literal string.
3. It walks the tokens left to right. Empty tokens are skipped. The first
   token that is not an integer raises "Non integer numbers are not allowed".
   The first negative value raises "Negative numbers are not allowed".
4. It sums the values in 0..100 and silently drops larger ones.

The model has six modules:

- `Wrappers` holds `Option` and `Result`.
- `Delimit` is the literal-delimiter split. The source builds an alternation
  of escaped literals and calls `re.split`. Here that is a direct scan: at the
  leftmost position where any delimiter occurs, the first delimiter in list
  order that matches there is cut out, and the scan resumes after it.
  `LeftmostFirst` is a declarative statement of the same decomposition. It is
  proved to have exactly one solution, the one `Split` returns. `Join` is a
  left inverse of `Split`: joining a split gives back the text, while
  splitting a join gives back the pieces only when they are leftmost-first.
- `Integers` is the reading of a token as an integer. `ParseInt` accepts an
  optional `-` followed by ASCII digits. `ParseInt` reads back whatever `Show`
  writes; `Show` writes back what `ParseInt` read only on canonical literals
  (`"007"` reads as 7 and is written as `"7"`).
- `StringCalculator` holds the header reader, the token classifier, the loop
  (`Total`, which stops at the first rejected token) and `Add`.
- `CalculatorProperties` relates `Add` to independent definitions:
  - `CountedSum` is the sum of what each token adds.
  - `FirstRejected` names the token that decides the error.
  - `Numerals` and `Pick` build inputs by joining numbers with chosen
    delimiters.
- `CalculatorCases` works through the documented examples and a few edge
  cases on concrete inputs.

The calculator object only stores its default list `[",", " "]` and hands out
a fresh copy on each call. A call therefore never changes what the next call
starts from. The model makes this explicit: the defaults are a constant,
`Add` is a pure function, and `ReadHeader` guarantees that the delimiters in
force always begin with exactly that list.

If the header declares a custom delimiter that begins with `,` or a space,
that delimiter is never used. The defaults come first in the alternation, so
the default it begins with always matches first. For example, with `//,;\n`
the input `1,;2` splits into `1` and `;2`, and the call raises the
non-integer error (`ShadowedCustomDelimiter`, `CalculatorCases.AddShadowed`).

## Model

| member | source | states |
|---|---|---|
| Delimit.MatchIndex | string_calculator.py:47 | The alternation of escaped delimiters picks, at a given position, the first delimiter in list order that occurs there, and nothing when none does |
| Delimit.MatchIndexIsFirst | string_calculator.py:47 | Conversely, the first delimiter in list order that the text begins with is the one the alternation picks |
| Delimit.NextCut | string_calculator.py:48 | The next cut is at the leftmost position where some delimiter occurs, or at the end of the text when none occurs |
| Delimit.NextCutIsLeast | string_calculator.py:48 | Any position with no match before it and a match at it (or the end) is the cut the split makes |
| Delimit.Split | string_calculator.py:47-48 | The split has one more token than separators, every separator is one of the delimiters, and joining tokens with separators gives back the text exactly |
| Delimit.SplitStep | string_calculator.py:48 | A text whose first match sits right after token `t` and picks `d` splits into `t`, `d` and the split of the rest |
| Delimit.SplitHead | string_calculator.py:48 | The first token of a split ends at the leftmost match, and the first separator is the delimiter picked there |
| Delimit.SplitIsLeftmostFirst | string_calculator.py:47-48 | What the split returns satisfies the declarative leftmost-first conditions on every token and separator |
| Delimit.LeftmostFirstIsSplit | string_calculator.py:47-48 | Any decomposition satisfying the leftmost-first conditions is the one the split returns |
| Delimit.SplitIffLeftmostFirst | string_calculator.py:47-48 | The split equals a given decomposition exactly when that decomposition joins back to the text and is leftmost-first: the answer is unique |
| Delimit.SplitTokensHoldNoDelimiter | string_calculator.py:47-48 | Delimiters match as literals: no token of a split contains any delimiter |
| Delimit.PrefixWithoutMatchIsFree | string_calculator.py:48 | A token with no match position before its end contains no delimiter |
| Delimit.SplitOfJoin | string_calculator.py:47-48 | Tokens free of delimiter lead characters, joined with delimiters that have distinct lead characters, split back into the same tokens and separators |
| Delimit.MatchIndexIgnoresShadowed | string_calculator.py:43-47 | An alternative that begins with an earlier alternative never changes which delimiter is picked |
| Delimit.NextCutIgnoresShadowed | string_calculator.py:43-48 | Adding such an alternative never moves a cut |
| Delimit.SplitIgnoresShadowed | string_calculator.py:43-48 | Appending a delimiter that begins with one already in the list leaves every split unchanged |
| Delimit.TokenCount | string_calculator.py:48 | A split has at most one token more than the text has characters |
| Delimit.JoinLength | string_calculator.py:48 | Each separator taken from non-empty delimiters adds at least one character to the joined text |
| Integers.DigitValue | string_calculator.py:55 | A digit's value is below ten |
| Integers.ParseInt | string_calculator.py:55-59 | `ParseInt` succeeds exactly on an optional minus sign followed by digits, and a negative result comes only from a leading minus sign |
| Integers.ShowNat | string_calculator.py:55 | The canonical decimal form of a natural number is a non-empty digit string |
| Integers.DigitsValueOfShowNat | string_calculator.py:55 | Reading the digits of `ShowNat(n)` gives `n` back |
| Integers.ParseShow | string_calculator.py:55 | Writing any integer out and reading it back gives the same integer, and the written form is canonical |
| Integers.ShowParse | string_calculator.py:55 | Reading a canonical literal and writing the value back gives the same text |
| Integers.ShowNatLead | string_calculator.py:55 | Only zero is written with a leading zero |
| Integers.NonZeroLeadIsPositive | string_calculator.py:55 | A digit string without a leading zero has a positive value |
| Integers.ShowNatOfDigits | string_calculator.py:55 | A canonical digit string is the canonical form of its value |
| StringCalculator.Message | string_calculator.py:57-61 | The errors carry the source's texts, "Non integer numbers are not allowed" and "Negative numbers are not allowed", and the header error carries the index error's "list index out of range" (line 44); each text belongs to exactly one error |
| StringCalculator.FirstNewline | string_calculator.py:42 | The header ends at the first newline, and there is none exactly when the text has no newline |
| StringCalculator.ReadHeader | string_calculator.py:40-44 | Without `//` the whole input is split on exactly `,` and space. With `//` and a newline, the delimiters are exactly those defaults plus the newline-free text between offset 2 and the first newline, and the body is what follows that newline. With `//` and no newline, the call raises the index error |
| StringCalculator.Classify | string_calculator.py:52-61 | An empty token is skipped. A token that is not an integer literal is rejected as a non-integer. A parsed negative is rejected as negative. Any other token is kept with its parsed value |
| StringCalculator.Total | string_calculator.py:50-65 | The loop's result lies between the starting total and that total plus 100 per token, and its only errors are the two validation errors |
| StringCalculator.Add | string_calculator.py:36-65 | A missing or empty input gives 0. The index error is raised exactly when the input starts with `//` and has no newline. A result is at most 100 times (length + 1) |
| CalculatorProperties.TotalSucceedsIff | string_calculator.py:50-65 | The loop completes exactly when no token is rejected |
| CalculatorProperties.TotalIsCountedSum | string_calculator.py:62-63 | A completed loop returns the starting total plus the sum of the values in 0..100; larger values add nothing |
| CalculatorProperties.TotalFirstRejection | string_calculator.py:52-61 | The leftmost rejected token decides the error |
| CalculatorProperties.FailureHasFirstRejection | string_calculator.py:52-61 | A failing loop failed on its leftmost rejected token, whose error it raises |
| CalculatorProperties.LaterTokensIgnored | string_calculator.py:56-61 | Once a token is rejected, nothing after it is inspected: appending any tokens changes nothing |
| CalculatorProperties.EmptyTokenAddsNothing | string_calculator.py:52-53 | An empty token, wherever it stands, leaves the loop's outcome unchanged |
| CalculatorProperties.TotalOfSmallValues | string_calculator.py:50-65 | If every non-empty token reads as an integer in 0..100, the loop returns exactly the arithmetic sum of those integers |
| CalculatorProperties.CountedSumOfSmallValues | string_calculator.py:62-63 | On such tokens the counted sum is the plain sum of their values |
| CalculatorProperties.AddWithoutHeader | string_calculator.py:40-48 | An input without `//` is totalled over its split on the comma and the space alone |
| CalculatorProperties.HeaderRoundTrip | string_calculator.py:41-44 | Writing `//`, a newline-free delimiter, a newline and a body, then reading the header, gives back the defaults plus that delimiter, and the same body |
| CalculatorProperties.FirstNewlineAt | string_calculator.py:42 | A newline with no newline before it is the first newline |
| CalculatorProperties.AddWithHeader | string_calculator.py:40-48 | With a header, the call totals the body's split on the defaults plus the declared delimiter |
| CalculatorProperties.AddOfSplitWithHeader | string_calculator.py:40-65 | With a header, the call is the loop over whatever tokens the body splits into |
| CalculatorProperties.ShadowedCustomDelimiter | string_calculator.py:40-48 | A declared delimiter that begins with a comma or a space has no effect: the call totals the body split on the defaults alone |
| CalculatorProperties.Numerals | test_string_calculator.py:15-50 | Reference builder for test-style inputs: the numerals of a list of numbers are their canonical decimal forms, one per number |
| CalculatorProperties.TotalOfNumerals | string_calculator.py:50-65 | Canonical numerals are kept with their own values, so the loop adds the numbers in 0..100 |
| CalculatorProperties.NumeralsTotal | string_calculator.py:50-65 | Numerals totalled from zero give the sum of the numbers in 0..100 |
| CalculatorProperties.NumeralsAvoidLeads | string_calculator.py:47-48 | Numerals hold no lead character of a delimiter that begins with a non-digit |
| CalculatorProperties.JoinedNumeralsLead | string_calculator.py:41 | A text of joined numerals begins with a digit, so it never has a header |
| CalculatorProperties.DefaultLeadsDistinct | string_calculator.py:10 | The default delimiters begin with distinct, non-digit characters |
| CalculatorProperties.SplitOfJoinedNumerals | string_calculator.py:47-48 | Numerals joined by delimiters with distinct non-digit leads split back into the same numerals |
| CalculatorProperties.SplitOfPicked | string_calculator.py:47-48 | Tokens joined by chosen delimiters split back into the same tokens and separators |
| CalculatorProperties.SlashFreeLeadIsNoHeader | string_calculator.py:41 | A joined text whose first token does not open with `/` has no header |
| CalculatorProperties.AddOfSplit | string_calculator.py:40-65 | Without a header, the call is the loop over whatever tokens the input splits into |
| CalculatorProperties.AddOfJoinedNumbers | string_calculator.py:36-65 | Numbers joined by any mix of commas and spaces add up to the sum of those in 0..100 |
| CalculatorProperties.AddOfJoinedTokens | string_calculator.py:36-65 | Tokens free of commas and spaces, joined by any mix of the two, are totalled exactly as written, provided the first token is non-empty and does not open with `/` (so the text has no header) |
| CalculatorProperties.SplitOfJoinedTokens | string_calculator.py:40-48 | Such tokens split back out of the joined text, which has no header |
| CalculatorProperties.AddOfJoinedNumbersWithHeader | string_calculator.py:36-65 | With a declared delimiter that begins with neither a default nor a digit, numbers joined by any mix of the three delimiters add up to the sum of those in 0..100, whatever characters the delimiter holds |
| CalculatorProperties.SplitOfJoinedNumeralsWithCustom | string_calculator.py:43-48 | Numerals joined by the defaults and such a declared delimiter split back into the same numerals |
| CalculatorProperties.CustomLeadsDistinct | string_calculator.py:43 | Such a declared delimiter keeps the delimiters' lead characters distinct and non-digit |
| CalculatorProperties.CappedSumOfSmall | string_calculator.py:62-63 | When no number exceeds 100, the capped sum is the plain sum |
| CalculatorProperties.AddFailureMessage | string_calculator.py:41-61 | Every failure of `add` carries one of the source's texts: "list index out of range" exactly when a `//` header has no newline, and otherwise "Non integer numbers are not allowed" or "Negative numbers are not allowed" |
| CalculatorProperties.AddIsTotal | string_calculator.py:36-65 | Any non-empty input with a well-formed header, or none, is totalled over the split of its body on the delimiters in force |
| CalculatorProperties.TotalFromZero | string_calculator.py:50-65 | From zero, the loop succeeds exactly when no token is rejected, then returns the counted sum, and otherwise raises the leftmost rejected token's error |
| CalculatorProperties.AddIsCountedSum | string_calculator.py:36-65 | End to end, the call succeeds exactly when no token of the split is rejected, then returns the counted sum, and otherwise raises the leftmost rejected token's error |
| CalculatorCases.AddOneTwo | test_string_calculator.py:15 | "1,2" gives 3 |
| CalculatorCases.AddTenFour | test_string_calculator.py:16 | "10,4" gives 14 |
| CalculatorCases.AddNothing | test_string_calculator.py:18-24 | The empty input and the missing input both give 0 |
| CalculatorCases.AddCommas | test_string_calculator.py:28 | "1,2,3" gives 6 |
| CalculatorCases.AddSpaces | test_string_calculator.py:32 | "1 2 3" gives 6 |
| CalculatorCases.AddCustom | test_string_calculator.py:36 | "//;\n1;2;3" gives 6 |
| CalculatorCases.AddAboveLimit | test_string_calculator.py:50 | "1,2,100,101" gives 103 |
| CalculatorCases.AboveLimitText | test_string_calculator.py:50 | The numbers 1, 2, 100 and 101 joined by commas are the text "1,2,100,101" |
| CalculatorCases.AboveLimitNumerals | test_string_calculator.py:50 | The canonical forms of 1, 2, 100 and 101 |
| CalculatorCases.AddDecimal | test_string_calculator.py:40-41 | "1,2,3.14" raises the non-integer error |
| CalculatorCases.AddNegative | test_string_calculator.py:45-46 | "1,-2,3" raises the negative error |
| CalculatorCases.AddMinusZero | string_calculator.py:55-61 | "-0" reads as zero, which is not negative, and gives 0 |
| CalculatorCases.AddHeaderOnly | string_calculator.py:41-44 | "//;" has no newline and raises the index error |
| CalculatorCases.AddShadowed | string_calculator.py:40-48 | "//,;\n1,;2" raises the non-integer error, because `,` matches before `,;` |
| CalculatorCases.ShadowedOfJoinedTokens | string_calculator.py:40-48 | A declared delimiter that begins with a comma or a space leaves tokens joined by the defaults totalled exactly as written |

## Left out

- The web service and the command-line program are left out. This covers the
  Flask routes, the HTML form, the JSON envelopes, the argparse entry points,
  and their exit codes and output. They only wrap `add`. The one check they
  add, that a missing `numbers` key gives HTTP 400, is I/O glue.
- `library.string_calculator`, which the service and the program import, is
  not part of this model. It is taken to be `string_calculator.py`.
- Integers.ParseInt: reads only an optional `-` followed by ASCII digits, so
  it differs from Python's `int()` in five ways. `int()` also accepts
  surrounding whitespace, a leading `+`, `_` digit separators and non-ASCII
  Unicode digits, so tokens such as `"+5"`, `"1_0"` or `"\t7"` read as
  non-integers in the model while the source accepts them. Conversely, in
  Python 3.11 and in the security releases of 3.7–3.10 (3.7.14, 3.8.14,
  3.9.14, 3.10.7) `int()` refuses decimal literals longer than 4300 digits,
  which the source then reports as the non-integer error; `ParseInt` has no
  length limit, so such a token is read as its (huge) value and dropped as
  above 100. The limit depends on the interpreter's configuration, so the
  model leaves it out.
- Add: an empty custom delimiter (`//\n...`) is excluded by the precondition
  `CustomDelimiterNonEmpty`. In the source it becomes an empty regular
  expression alternative, and `re.split` then cuts between every character.
  The model does not cover that empty-match behaviour.
- Add: a `//` header without a newline makes the source raise an unhandled
  `IndexError` ("list index out of range"). The model returns it as the
  distinct error `HeaderWithoutNewline`.
- The regular-expression engine itself is replaced by the direct left-to-right
  scan in `Delimit`. It agrees with an alternation of escaped non-empty
  literals: leftmost position, then first alternative.
- Exceptions are modelled as `Result` failures carrying an `Error`, and
  `Message` gives each error's text. Exception chaining (`from
  value_exception`) is not modelled.

=== FILE: calculator_cases.dfy ===
/** The calculator's documented examples, derived from the general lemmas. */
module CalculatorCases {
  import opened Wrappers
  import opened Delimit
  import opened Integers
  import opened StringCalculator
  import opened CalculatorProperties

  /** "1,2" adds up to 3. */
  lemma AddOneTwo()
    ensures Add(Some("1,2")) == Success(3)
  {
    var ns: seq<nat> := [1, 2];
    assert Numerals(ns) == ["1", "2"];
    assert Pick([0], DefaultDelimiters) == [","];
    assert Join(["1", "2"], [","]) == "1,2";
    assert CappedSum(ns) == 3;
    AddOfJoinedNumbers(ns, [0]);
  }

  /** "10,4" adds up to 14. */
  lemma AddTenFour()
    ensures Add(Some("10,4")) == Success(14)
  {
    var ns: seq<nat> := [10, 4];
    assert ShowNat(10) == "10";
    assert Numerals(ns) == ["10", "4"];
    assert Pick([0], DefaultDelimiters) == [","];
    assert Join(["10", "4"], [","]) == "10,4";
    assert CappedSum(ns) == 14;
    AddOfJoinedNumbers(ns, [0]);
  }

  /** The empty input and the missing input both add up to zero. */
  lemma AddNothing()
    ensures Add(Some("")) == Success(0)
    ensures Add(None) == Success(0)
  {
  }

  /** "1,2,3" adds up to 6. */
  lemma AddCommas()
    ensures Add(Some("1,2,3")) == Success(6)
  {
    var ns: seq<nat> := [1, 2, 3];
    assert Numerals(ns) == ["1", "2", "3"];
    assert Pick([0, 0], DefaultDelimiters) == [",", ","];
    assert Join(["1", "2", "3"], [",", ","]) == "1,2,3";
    assert CappedSum(ns) == 6;
    AddOfJoinedNumbers(ns, [0, 0]);
  }

  /** "1 2 3" adds up to 6. */
  lemma AddSpaces()
    ensures Add(Some("1 2 3")) == Success(6)
  {
    var ns: seq<nat> := [1, 2, 3];
    assert Numerals(ns) == ["1", "2", "3"];
    assert Pick([1, 1], DefaultDelimiters) == [" ", " "];
    assert Join(["1", "2", "3"], [" ", " "]) == "1 2 3";
    assert CappedSum(ns) == 6;
    AddOfJoinedNumbers(ns, [1, 1]);
  }

  /** "//;\n1;2;3" declares ';' and adds up to 6. */
  lemma AddCustom()
    ensures Add(Some("//;\n1;2;3")) == Success(6)
  {
    var ns: seq<nat> := [1, 2, 3];
    var body := "1;2;3";
    assert Numerals(ns) == ["1", "2", "3"];
    assert Pick([2, 2], DefaultDelimiters + [";"]) == [";", ";"];
    assert Join(["1", "2", "3"], [";", ";"]) == body;
    assert HeaderMarker + ";" + "\n" + body == "//;\n1;2;3";
    assert CappedSum(ns) == 6;
    AddOfJoinedNumbersWithHeader(";", ns, [2, 2], body);
  }

  /** "1,2,100,101" adds up to 103: 100 counts, 101 is dropped. */
  lemma AddAboveLimit()
    ensures Add(Some("1,2,100,101")) == Success(103)
  {
    var ns: seq<nat> := [1, 2, 100, 101];
    AboveLimitText();
    assert CappedSum(ns) == 103;
    AddOfJoinedNumbers(ns, [0, 0, 0]);
  }

  /** The numerals of 1, 2, 100 and 101 joined by commas. */
  lemma AboveLimitText()
    ensures Join(Numerals([1, 2, 100, 101]), Pick([0, 0, 0], DefaultDelimiters)) == "1,2,100,101"
  {
    var t, p := ["1", "2", "100", "101"], [",", ",", ","];
    AboveLimitNumerals();
    assert Pick([0, 0, 0], DefaultDelimiters) == p;
    assert Join(t[2..], p[2..]) == "100,101";
    assert Join(t[1..], p[1..]) == "2,100,101";
  }

  /** The canonical forms of 1, 2, 100 and 101. */
  lemma AboveLimitNumerals()
    ensures Numerals([1, 2, 100, 101]) == ["1", "2", "100", "101"]
  {
    assert ShowNat(10) == "10";
    assert ShowNat(100) == "100" && ShowNat(101) == "101";
  }

  /** "1,2,3.14" is rejected as a non-integer. */
  lemma AddDecimal()
    ensures Add(Some("1,2,3.14")) == Failure(NonInteger)
  {
    var tokens := ["1", "2", "3.14"];
    assert Pick([0, 0], DefaultDelimiters) == [",", ","];
    assert Join(tokens, [",", ","]) == "1,2,3.14";
    assert !IsDigit("3.14"[1]);
    assert Classify("3.14") == Reject(NonInteger);
    assert Total(tokens, 0) == Failure(NonInteger);
    AddOfJoinedTokens(tokens, [0, 0]);
  }

  /** "1,-2,3" is rejected for its negative number. */
  lemma AddNegative()
    ensures Add(Some("1,-2,3")) == Failure(Negative)
  {
    var tokens := ["1", "-2", "3"];
    assert Pick([0, 0], DefaultDelimiters) == [",", ","];
    assert Join(tokens, [",", ","]) == "1,-2,3";
    assert "-2"[1..] == "2";
    assert ParseInt("-2") == Some(-2);
    assert Total(tokens, 0) == Failure(Negative);
    AddOfJoinedTokens(tokens, [0, 0]);
  }

  /** "-0" reads as zero, which is not negative. */
  lemma AddMinusZero()
    ensures Add(Some("-0")) == Success(0)
  {
    var tokens := ["-0"];
    assert Join(tokens, []) == "-0";
    assert "-0"[1..] == "0";
    assert ParseInt("-0") == Some(0);
    assert Total(tokens, 0) == Success(0);
    AddOfJoinedTokens(tokens, []);
  }

  /** "//;" has no newline after its header and raises the index error. */
  lemma AddHeaderOnly()
    ensures Add(Some("//;")) == Failure(HeaderWithoutNewline)
  {
    assert "//;"[..2] == HeaderMarker;
  }

  /** "//,;\n1,;2" declares ",;", but ',' matches first, leaving ";2" as a
      token that is not an integer. */
  lemma AddShadowed()
    ensures Add(Some("//,;\n1,;2")) == Failure(NonInteger)
  {
    var tokens := ["1", ";2"];
    var body := "1,;2";
    assert HeaderMarker + ",;" + "\n" + body == "//,;\n1,;2";
    assert !IsDigit(";2"[0]) && ";2"[0] != '-';
    assert Total(tokens, 0) == Failure(NonInteger);
    assert Pick([0], DefaultDelimiters) == [","];
    assert Join(tokens, [","]) == body;
    ShadowedOfJoinedTokens(",;", tokens, [0]);
  }

  /** `ShadowedCustomDelimiter` on a body of joined tokens: after a header
      that declares a shadowed delimiter, tokens joined by the defaults are
      totalled exactly as written, whatever the first token is. */
  lemma ShadowedOfJoinedTokens(custom: string, tokens: seq<string>, choice: seq<nat>)
    requires custom != [] && '\n' !in custom
    requires custom[0] == ',' || custom[0] == ' '
    requires |tokens| == |choice| + 1
    requires forall k :: 0 <= k < |choice| ==> choice[k] < |DefaultDelimiters|
    requires forall k :: 0 <= k < |tokens| ==> AvoidsLeads(tokens[k], DefaultDelimiters)
    ensures CustomDelimiterNonEmpty(HeaderMarker + custom + "\n" + Join(tokens, Pick(choice, DefaultDelimiters)))
    ensures Add(Some(HeaderMarker + custom + "\n" + Join(tokens, Pick(choice, DefaultDelimiters)))) ==
      Total(tokens, 0)
  {
    DefaultLeadsDistinct();
    SplitOfPicked(DefaultDelimiters, tokens, choice);
    ShadowedCustomDelimiter(custom, Join(tokens, Pick(choice, DefaultDelimiters)));
  }
}

=== FILE: calculator_properties.dfy ===
/** What `add` promises, stated against independent definitions: the sum of
    the counted values, the first rejected token, and inputs built by joining
    numerals with delimiters. */
module CalculatorProperties {
  import opened Wrappers
  import opened Delimit
  import opened Integers
  import opened StringCalculator

  /** What a token adds when nothing is rejected: its value when it is at
      most `Limit`, and nothing otherwise. */
  function Counted(token: string): nat {
    match Classify(token)
    case Keep(n) => if n <= Limit then n else 0
    case _ => 0
  }

  /** The sum of what every token adds. */
  function CountedSum(tokens: seq<string>): nat
    decreases |tokens|
  {
    if |tokens| == 0 then 0 else Counted(tokens[0]) + CountedSum(tokens[1..])
  }

  /** Token `k` is the leftmost rejected token. */
  predicate FirstRejected(tokens: seq<string>, k: int) {
    && 0 <= k < |tokens|
    && Rejected(tokens[k])
    && forall j :: 0 <= j < k ==> !Rejected(tokens[j])
  }

  /** The loop completes exactly when no token is rejected. */
  lemma {:induction false} TotalSucceedsIff(tokens: seq<string>, total: nat)
    ensures Total(tokens, total).Success? <==> forall k :: 0 <= k < |tokens| ==> !Rejected(tokens[k])
    decreases |tokens|
  {
    if |tokens| > 0 {
      match Classify(tokens[0])
      case Reject(_) =>
      case Skip => TotalSucceedsIff(tokens[1..], total);
      case Keep(n) => TotalSucceedsIff(tokens[1..], if n <= Limit then total + n else total);
      assert forall k :: 1 <= k < |tokens| ==> tokens[k] == tokens[1..][k - 1];
    }
  }

  /** When it completes, the loop returns the starting total plus the sum of
      the values in 0..Limit; larger values add nothing. */
  lemma {:induction false} TotalIsCountedSum(tokens: seq<string>, total: nat)
    requires Total(tokens, total).Success?
    ensures Total(tokens, total).value == total + CountedSum(tokens)
    decreases |tokens|
  {
    if |tokens| > 0 {
      match Classify(tokens[0])
      case Skip => TotalIsCountedSum(tokens[1..], total);
      case Keep(n) => TotalIsCountedSum(tokens[1..], if n <= Limit then total + n else total);
    }
  }

  /** The leftmost rejected token decides the error. */
  lemma {:induction false} TotalFirstRejection(tokens: seq<string>, total: nat, k: nat)
    requires FirstRejected(tokens, k)
    ensures Total(tokens, total) == Failure(Classify(tokens[k]).error)
    decreases k
  {
    if k > 0 {
      assert !Rejected(tokens[0]);
      assert FirstRejected(tokens[1..], k - 1);
      match Classify(tokens[0])
      case Skip => TotalFirstRejection(tokens[1..], total, k - 1);
      case Keep(n) => TotalFirstRejection(tokens[1..], if n <= Limit then total + n else total, k - 1);
    }
  }

  /** A failing loop failed on a rejected token: some token is the leftmost
      rejected one and carries the error. */
  lemma {:induction false} FailureHasFirstRejection(tokens: seq<string>, total: nat)
    requires Total(tokens, total).Failure?
    ensures exists k :: FirstRejected(tokens, k) && Classify(tokens[k]).error == Total(tokens, total).error
    decreases |tokens|
  {
    var e := Total(tokens, total).error;
    match Classify(tokens[0])
    case Reject(_) =>
      assert FirstRejected(tokens, 0);
    case Skip =>
      FailureHasFirstRejection(tokens[1..], total);
      var k :| FirstRejected(tokens[1..], k) && Classify(tokens[1..][k]).error == e;
      assert FirstRejected(tokens, k + 1);
    case Keep(n) =>
      var next := if n <= Limit then total + n else total;
      FailureHasFirstRejection(tokens[1..], next);
      var k :| FirstRejected(tokens[1..], k) && Classify(tokens[1..][k]).error == e;
      assert FirstRejected(tokens, k + 1);
  }

  /** Once a token is rejected, no later token is inspected. */
  lemma LaterTokensIgnored(tokens: seq<string>, later: seq<string>, total: nat, k: nat)
    requires FirstRejected(tokens, k)
    ensures Total(tokens + later, total) == Total(tokens, total)
  {
    assert FirstRejected(tokens + later, k) by {
      assert forall j :: 0 <= j <= k ==> (tokens + later)[j] == tokens[j];
    }
    TotalFirstRejection(tokens, total, k);
    TotalFirstRejection(tokens + later, total, k);
  }

  /** An empty token, wherever it stands, changes nothing. */
  lemma {:induction false} EmptyTokenAddsNothing(before: seq<string>, after: seq<string>, total: nat)
    ensures Total(before + [""] + after, total) == Total(before + after, total)
    decreases |before|
  {
    if |before| == 0 {
      assert before + [""] + after == [""] + after;
      assert ([""] + after)[0] == "" && ([""] + after)[1..] == after;
      assert before + after == after;
    } else {
      var rest := before[1..];
      assert (before + [""] + after)[1..] == rest + [""] + after;
      assert (before + after)[1..] == rest + after;
      assert (before + [""] + after)[0] == before[0] == (before + after)[0];
      match Classify(before[0])
      case Reject(_) =>
      case Skip => EmptyTokenAddsNothing(rest, after, total);
      case Keep(n) => EmptyTokenAddsNothing(rest, after, if n <= Limit then total + n else total);
    }
  }

  function Sum(ns: seq<int>): int
    decreases |ns|
  {
    if |ns| == 0 then 0 else ns[0] + Sum(ns[1..])
  }

  /** The values the non-empty tokens read as, in order. */
  function Values(tokens: seq<string>): seq<int>
    requires forall k :: 0 <= k < |tokens| ==> tokens[k] == [] || ParseInt(tokens[k]).Some?
    decreases |tokens|
  {
    if |tokens| == 0 then []
    else if tokens[0] == [] then Values(tokens[1..])
    else [ParseInt(tokens[0]).value] + Values(tokens[1..])
  }

  /** Every non-empty token reads as an integer in 0..Limit. */
  predicate AllInRange(tokens: seq<string>) {
    forall k :: 0 <= k < |tokens| ==>
      tokens[k] == [] || (ParseInt(tokens[k]).Some? && 0 <= ParseInt(tokens[k]).value <= Limit)
  }

  /** If every non-empty token is an integer in 0..Limit, the loop returns
      exactly the arithmetic sum of those integers. */
  lemma {:induction false} TotalOfSmallValues(tokens: seq<string>)
    requires AllInRange(tokens)
    ensures Total(tokens, 0) == Success(Sum(Values(tokens)))
  {
    TotalSucceedsIff(tokens, 0);
    TotalIsCountedSum(tokens, 0);
    CountedSumOfSmallValues(tokens);
  }

  /** On tokens in 0..Limit, the counted sum is the plain sum of their values. */
  lemma {:induction false} CountedSumOfSmallValues(tokens: seq<string>)
    requires AllInRange(tokens)
    ensures CountedSum(tokens) == Sum(Values(tokens))
    decreases |tokens|
  {
    if |tokens| > 0 {
      assert AllInRange(tokens[1..]) by {
        assert forall k :: 1 <= k < |tokens| ==> tokens[k] == tokens[1..][k - 1];
      }
      CountedSumOfSmallValues(tokens[1..]);
      if tokens[0] != [] {
        assert [ParseInt(tokens[0]).value] + Values(tokens[1..]) == Values(tokens);
      }
    }
  }

  /** Inputs without the `//` marker are split on the comma and the space
      only, over the whole input. */
  lemma AddWithoutHeader(s: string)
    requires s != [] && !StartsWith(s, HeaderMarker)
    ensures Add(Some(s)) == Total(Split(s, DefaultDelimiters).tokens, 0)
  {
  }

  /** Writing a header and reading it back gives the same delimiter and body. */
  lemma HeaderRoundTrip(custom: string, body: string)
    requires '\n' !in custom
    ensures ReadHeader(HeaderMarker + custom + "\n" + body) ==
      Success(Request(DefaultDelimiters + [custom], body))
  {
    var s := HeaderMarker + custom + "\n" + body;
    var k := |custom| + 2;
    assert s[..2] == HeaderMarker;
    assert s[k] == '\n';
    assert forall j :: 2 <= j < k ==> s[j] == custom[j - 2];
    FirstNewlineAt(s, k);
    assert s[2..k] == custom;
    assert s[k + 1..] == body;
  }

  /** The first newline is the one with no newline before it. */
  lemma FirstNewlineAt(s: string, i: nat)
    requires i < |s| && s[i] == '\n'
    requires forall j :: 0 <= j < i ==> s[j] != '\n'
    ensures FirstNewline(s) == Some(i)
  {
    assert s[i] in s;
  }

  /** With a `//<delimiter>\n` header, the delimiters are the defaults plus
      that delimiter, and only the text after the newline is split. */
  lemma AddWithHeader(custom: string, body: string)
    requires custom != [] && '\n' !in custom
    ensures CustomDelimiterNonEmpty(HeaderMarker + custom + "\n" + body)
    ensures Add(Some(HeaderMarker + custom + "\n" + body)) ==
      Total(Split(body, DefaultDelimiters + [custom]).tokens, 0)
  {
    HeaderRoundTrip(custom, body);
    var s := HeaderMarker + custom + "\n" + body;
    assert s[2] == custom[0];
  }

  /** A custom delimiter that begins with a comma or a space has no effect:
      the default that it begins with matches first wherever it occurs. */
  lemma ShadowedCustomDelimiter(custom: string, body: string)
    requires custom != [] && '\n' !in custom
    requires custom[0] == ',' || custom[0] == ' '
    ensures CustomDelimiterNonEmpty(HeaderMarker + custom + "\n" + body)
    ensures Add(Some(HeaderMarker + custom + "\n" + body)) ==
      Total(Split(body, DefaultDelimiters).tokens, 0)
  {
    var m := if custom[0] == ',' then 0 else 1;
    assert custom[..1] == DefaultDelimiters[m];
    SplitIgnoresShadowed(body, DefaultDelimiters, custom, m);
    AddOfSplitWithHeader(custom, body, Split(body, DefaultDelimiters).tokens);
  }

  /** The canonical numerals of a list of natural numbers. */
  function Numerals(ns: seq<nat>): (r: seq<string>)
    ensures |r| == |ns|
    ensures forall k :: 0 <= k < |ns| ==> r[k] == ShowNat(ns[k])
    decreases |ns|
  {
    if |ns| == 0 then [] else [ShowNat(ns[0])] + Numerals(ns[1..])
  }

  /** The sum of the numbers in 0..Limit. */
  function CappedSum(ns: seq<nat>): nat
    decreases |ns|
  {
    if |ns| == 0 then 0 else (if ns[0] <= Limit then ns[0] else 0) + CappedSum(ns[1..])
  }

  /** Numerals are kept with their own value. */
  lemma {:induction false} TotalOfNumerals(ns: seq<nat>, total: nat)
    ensures Total(Numerals(ns), total) == Success(total + CappedSum(ns))
    decreases |ns|
  {
    if |ns| > 0 {
      ParseShow(ns[0]);
      assert Numerals(ns)[1..] == Numerals(ns[1..]);
      TotalOfNumerals(ns[1..], if ns[0] <= Limit then total + ns[0] else total);
    }
  }

  /** Numerals totalled from zero give the capped sum. */
  lemma NumeralsTotal(ns: seq<nat>)
    ensures Total(Numerals(ns), 0) == Success(CappedSum(ns))
  {
    TotalOfNumerals(ns, 0);
  }

  /** No numeral contains a character that begins one of `delims`. */
  lemma NumeralsAvoidLeads(ns: seq<nat>, delims: seq<string>)
    requires ValidDelimiters(delims)
    requires forall m :: 0 <= m < |delims| ==> !IsDigit(delims[m][0])
    ensures forall k :: 0 <= k < |ns| ==> AvoidsLeads(Numerals(ns)[k], delims)
  {
  }

  /** A text of joined numerals begins with a digit, so never with a header. */
  lemma JoinedNumeralsLead(ns: seq<nat>, seps: seq<string>)
    requires |ns| == |seps| + 1
    ensures Join(Numerals(ns), seps) != [] && IsDigit(Join(Numerals(ns), seps)[0])
    ensures !StartsWith(Join(Numerals(ns), seps), HeaderMarker)
  {
    var first := Numerals(ns)[0];
    assert first == ShowNat(ns[0]);
    var text := Join(Numerals(ns), seps);
    JoinBeginsWithFirst(Numerals(ns), seps);
    assert text[0] == text[..|first|][0];
    SlashFreeLeadIsNoHeader(Numerals(ns), seps);
  }

  /** The comma and the space are distinct, non-digit leading characters. */
  lemma DefaultLeadsDistinct()
    ensures DistinctLeads(DefaultDelimiters)
    ensures forall m :: 0 <= m < |DefaultDelimiters| ==> !IsDigit(DefaultDelimiters[m][0])
  {
  }

  /** The separators chosen by index from `delims`, one per gap. */
  function Pick(choice: seq<nat>, delims: seq<string>): (seps: seq<string>)
    requires forall k :: 0 <= k < |choice| ==> choice[k] < |delims|
    ensures |seps| == |choice|
    ensures forall k :: 0 <= k < |choice| ==> seps[k] == delims[choice[k]]
  {
    seq(|choice|, k requires 0 <= k < |choice| => delims[choice[k]])
  }

  /** Splitting joined numerals on delimiters that begin with distinct
      non-digit characters gives back the numerals. */
  lemma SplitOfJoinedNumerals(ns: seq<nat>, choice: seq<nat>, delims: seq<string>)
    requires DistinctLeads(delims)
    requires forall m :: 0 <= m < |delims| ==> !IsDigit(delims[m][0])
    requires |ns| == |choice| + 1
    requires forall k :: 0 <= k < |choice| ==> choice[k] < |delims|
    ensures Split(Join(Numerals(ns), Pick(choice, delims)), delims).tokens == Numerals(ns)
  {
    NumeralsAvoidLeads(ns, delims);
    SplitOfPicked(delims, Numerals(ns), choice);
  }

  /** `Add` on a text with a header is the total of the body's tokens. */
  lemma AddOfSplitWithHeader(custom: string, body: string, tokens: seq<string>)
    requires custom != [] && '\n' !in custom
    requires Split(body, DefaultDelimiters + [custom]).tokens == tokens
    ensures CustomDelimiterNonEmpty(HeaderMarker + custom + "\n" + body)
    ensures Add(Some(HeaderMarker + custom + "\n" + body)) == Total(tokens, 0)
  {
    AddWithHeader(custom, body);
  }

  /** Numbers joined by any mix of commas and spaces (`choice` picks the
      delimiter in each gap) add up to the sum of those in 0..Limit. */
  lemma AddOfJoinedNumbers(ns: seq<nat>, choice: seq<nat>)
    requires |ns| == |choice| + 1
    requires forall k :: 0 <= k < |choice| ==> choice[k] < |DefaultDelimiters|
    ensures CustomDelimiterNonEmpty(Join(Numerals(ns), Pick(choice, DefaultDelimiters)))
    ensures Add(Some(Join(Numerals(ns), Pick(choice, DefaultDelimiters)))) == Success(CappedSum(ns))
  {
    var seps := Pick(choice, DefaultDelimiters);
    NumeralsTotal(ns);
    DefaultLeadsDistinct();
    SplitOfJoinedNumerals(ns, choice, DefaultDelimiters);
    JoinedNumeralsLead(ns, seps);
    AddOfSplit(Join(Numerals(ns), seps), Numerals(ns));
  }

  /** Tokens free of the comma and the space, joined by any mix of the two
      and not opening with `/`, are totalled exactly as they were written. */
  lemma AddOfJoinedTokens(tokens: seq<string>, choice: seq<nat>)
    requires |tokens| == |choice| + 1
    requires forall k :: 0 <= k < |choice| ==> choice[k] < |DefaultDelimiters|
    requires forall k :: 0 <= k < |tokens| ==> AvoidsLeads(tokens[k], DefaultDelimiters)
    requires tokens[0] != [] && tokens[0][0] != '/'
    ensures CustomDelimiterNonEmpty(Join(tokens, Pick(choice, DefaultDelimiters)))
    ensures Add(Some(Join(tokens, Pick(choice, DefaultDelimiters)))) == Total(tokens, 0)
  {
    var text := Join(tokens, Pick(choice, DefaultDelimiters));
    SplitOfJoinedTokens(tokens, choice);
    AddOfSplit(text, tokens);
  }

  /** The split half of `AddOfJoinedTokens`. */
  lemma SplitOfJoinedTokens(tokens: seq<string>, choice: seq<nat>)
    requires |tokens| == |choice| + 1
    requires forall k :: 0 <= k < |choice| ==> choice[k] < |DefaultDelimiters|
    requires forall k :: 0 <= k < |tokens| ==> AvoidsLeads(tokens[k], DefaultDelimiters)
    requires tokens[0] != [] && tokens[0][0] != '/'
    ensures Join(tokens, Pick(choice, DefaultDelimiters)) != []
    ensures !StartsWith(Join(tokens, Pick(choice, DefaultDelimiters)), HeaderMarker)
    ensures Split(Join(tokens, Pick(choice, DefaultDelimiters)), DefaultDelimiters).tokens == tokens
  {
    DefaultLeadsDistinct();
    SplitOfPicked(DefaultDelimiters, tokens, choice);
    SlashFreeLeadIsNoHeader(tokens, Pick(choice, DefaultDelimiters));
  }

  /** Splitting tokens joined by separators picked from `delims` gives back
      the tokens, when no token holds a leading character of a delimiter. */
  lemma SplitOfPicked(delims: seq<string>, tokens: seq<string>, choice: seq<nat>)
    requires DistinctLeads(delims)
    requires |tokens| == |choice| + 1
    requires forall k :: 0 <= k < |choice| ==> choice[k] < |delims|
    requires forall k :: 0 <= k < |tokens| ==> AvoidsLeads(tokens[k], delims)
    ensures Split(Join(tokens, Pick(choice, delims)), delims) == Pieces(tokens, Pick(choice, delims))
  {
    var seps := Pick(choice, delims);
    assert forall k :: 0 <= k < |seps| ==> seps[k] in delims;
    SplitOfJoin(delims, tokens, seps);
  }

  /** A joined text whose first token opens with a character other than `/`
      has no header. */
  lemma SlashFreeLeadIsNoHeader(tokens: seq<string>, seps: seq<string>)
    requires |tokens| == |seps| + 1
    requires tokens[0] != [] && tokens[0][0] != '/'
    ensures Join(tokens, seps) != [] && !StartsWith(Join(tokens, seps), HeaderMarker)
  {
    var text := Join(tokens, seps);
    JoinBeginsWithFirst(tokens, seps);
    assert text[0] == text[..|tokens[0]|][0];
  }

  /** `Add` on a header-free text is the total of its split tokens. */
  lemma AddOfSplit(text: string, tokens: seq<string>)
    requires text != [] && !StartsWith(text, HeaderMarker)
    requires Split(text, DefaultDelimiters).tokens == tokens
    ensures CustomDelimiterNonEmpty(text)
    ensures Add(Some(text)) == Total(tokens, 0)
  {
    AddWithoutHeader(text);
  }

  /** The same with a custom delimiter declared in a header, mixed freely
      with the defaults, provided it begins with neither a default delimiter
      nor a digit. */
  lemma AddOfJoinedNumbersWithHeader(custom: string, ns: seq<nat>, choice: seq<nat>, body: string)
    requires custom != [] && '\n' !in custom
    requires custom[0] != ',' && custom[0] != ' ' && !IsDigit(custom[0])
    requires |ns| == |choice| + 1
    requires forall k :: 0 <= k < |choice| ==> choice[k] < |DefaultDelimiters| + 1
    requires body == Join(Numerals(ns), Pick(choice, DefaultDelimiters + [custom]))
    ensures CustomDelimiterNonEmpty(HeaderMarker + custom + "\n" + body)
    ensures Add(Some(HeaderMarker + custom + "\n" + body)) == Success(CappedSum(ns))
  {
    SplitOfJoinedNumeralsWithCustom(custom, ns, choice);
    NumeralsTotal(ns);
    AddOfSplitWithHeader(custom, body, Numerals(ns));
  }

  /** Numerals joined by the defaults and a declared delimiter with a
      distinct non-digit lead split back into the same numerals. */
  lemma SplitOfJoinedNumeralsWithCustom(custom: string, ns: seq<nat>, choice: seq<nat>)
    requires custom != [] && custom[0] != ',' && custom[0] != ' ' && !IsDigit(custom[0])
    requires |ns| == |choice| + 1
    requires forall k :: 0 <= k < |choice| ==> choice[k] < |DefaultDelimiters| + 1
    ensures Split(Join(Numerals(ns), Pick(choice, DefaultDelimiters + [custom])), DefaultDelimiters + [custom]).tokens
      == Numerals(ns)
  {
    var delims := DefaultDelimiters + [custom];
    CustomLeadsDistinct(custom, delims);
    SplitOfJoinedNumerals(ns, choice, delims);
  }

  /** A custom delimiter that begins with neither a default delimiter nor a
      digit keeps the leading characters distinct and non-digit. */
  lemma CustomLeadsDistinct(custom: string, delims: seq<string>)
    requires custom != [] && custom[0] != ',' && custom[0] != ' ' && !IsDigit(custom[0])
    requires delims == DefaultDelimiters + [custom]
    ensures DistinctLeads(delims)
    ensures forall m :: 0 <= m < |delims| ==> !IsDigit(delims[m][0])
  {
    assert delims == [",", " ", custom];
  }

  /** On all-small inputs the result is the plain sum of the numbers. */
  lemma {:induction false} CappedSumOfSmall(ns: seq<nat>)
    requires forall k :: 0 <= k < |ns| ==> ns[k] <= Limit
    ensures CappedSum(ns) == Sum(ns)
    decreases |ns|
  {
    if |ns| > 0 {
      CappedSumOfSmall(ns[1..]);
    }
  }

  /** `Add` on any input with a well-formed header, or none, is the loop over
      the split tokens of its body. */
  lemma AddIsTotal(s: string)
    requires s != [] && CustomDelimiterNonEmpty(s) && ReadHeader(s).Success?
    ensures ValidDelimiters(ReadHeader(s).value.delims)
    ensures Add(Some(s)) ==
      Total(Split(ReadHeader(s).value.body, ReadHeader(s).value.delims).tokens, 0)
  {
  }

  /** Every failure of `Add` carries one of the source's texts: the index
      error's text exactly when a `//` header has no newline, and one of the
      two validation texts otherwise. */
  lemma AddFailureMessage(s: string)
    requires s != [] && CustomDelimiterNonEmpty(s)
    ensures Add(Some(s)).Failure? ==>
      (Message(Add(Some(s)).error) == "list index out of range"
       <==> StartsWith(s, HeaderMarker) && '\n' !in s)
    ensures Add(Some(s)).Failure? && !(StartsWith(s, HeaderMarker) && '\n' !in s) ==>
      || Message(Add(Some(s)).error) == "Non integer numbers are not allowed"
      || Message(Add(Some(s)).error) == "Negative numbers are not allowed"
  {
    if ReadHeader(s).Success? {
      AddIsTotal(s);
    }
  }

  /** The loop from zero, against the reference definitions: it succeeds
      exactly when no token is rejected, then with the counted sum, and
      otherwise fails with the error of the leftmost rejected token. */
  lemma TotalFromZero(tokens: seq<string>)
    ensures Total(tokens, 0).Success? <==> forall k :: 0 <= k < |tokens| ==> !Rejected(tokens[k])
    ensures Total(tokens, 0).Success? ==> Total(tokens, 0).value == CountedSum(tokens)
    ensures Total(tokens, 0).Failure? ==>
      exists k :: FirstRejected(tokens, k) && Classify(tokens[k]).error == Total(tokens, 0).error
  {
    TotalSucceedsIff(tokens, 0);
    if Total(tokens, 0).Success? {
      TotalIsCountedSum(tokens, 0);
    } else {
      FailureHasFirstRejection(tokens, 0);
    }
  }

  /** `add` end to end: with `tokens` the split of the body on the delimiters
      in force, the call succeeds exactly when no token is rejected, returns
      the counted sum, and otherwise raises the leftmost rejected token's
      error. */
  lemma AddIsCountedSum(s: string, tokens: seq<string>)
    requires s != [] && CustomDelimiterNonEmpty(s) && ReadHeader(s).Success?
    requires ValidDelimiters(ReadHeader(s).value.delims)
    requires tokens == Split(ReadHeader(s).value.body, ReadHeader(s).value.delims).tokens
    ensures Add(Some(s)).Success? <==> forall k :: 0 <= k < |tokens| ==> !Rejected(tokens[k])
    ensures Add(Some(s)).Success? ==> Add(Some(s)).value == CountedSum(tokens)
    ensures Add(Some(s)).Failure? ==>
      exists k :: FirstRejected(tokens, k) && Classify(tokens[k]).error == Add(Some(s)).error
  {
    AddIsTotal(s);
    TotalFromZero(tokens);
  }
}

=== FILE: delimit.dfy ===
/** Splitting text on a list of literal delimiters.

    The calculator escapes every delimiter, joins them into one regular
    expression alternation and splits the text on it. With non-empty literal
    alternatives that split scans left to right: at the leftmost position where
    any delimiter occurs it cuts, using the first delimiter in list order that
    matches there, and resumes right after the matched text. This module states
    that scan directly over `seq<char>`, without a regular expression engine. */
module Delimit {
  import opened Wrappers

  /** `s` begins with the literal `p`. */
  predicate StartsWith(s: string, p: string) {
    |p| <= |s| && s[..|p|] == p
  }

  /** Every delimiter is a non-empty literal, so each cut consumes text. */
  predicate ValidDelimiters(delims: seq<string>) {
    forall k :: 0 <= k < |delims| ==> |delims[k]| > 0
  }

  /** The index of the delimiter an ordered alternation matches at the start of
      `text`: the first one in list order that `text` begins with. */
  function MatchIndex(text: string, delims: seq<string>): (r: Option<nat>)
    ensures r.Some? ==> r.value < |delims| && StartsWith(text, delims[r.value])
    ensures r.Some? ==> forall j :: 0 <= j < r.value ==> !StartsWith(text, delims[j])
    ensures r.None? ==> forall j :: 0 <= j < |delims| ==> !StartsWith(text, delims[j])
    decreases |delims|
  {
    if |delims| == 0 then None
    else if StartsWith(text, delims[0]) then Some(0)
    else
      match MatchIndex(text, delims[1..])
      case None => None
      case Some(k) => Some(k + 1)
  }

  /** No delimiter matches at any of the first `i` positions of `text`. */
  ghost predicate NoMatchBefore(text: string, delims: seq<string>, i: nat)
    requires i <= |text|
  {
    forall j :: 0 <= j < i ==> MatchIndex(text[j..], delims).None?
  }

  /** `d` is the delimiter the alternation picks at the start of `text`. */
  ghost predicate MatchesFirst(text: string, delims: seq<string>, d: string) {
    MatchIndex(text, delims).Some? && delims[MatchIndex(text, delims).value] == d
  }

  /** The position of the leftmost delimiter occurrence, or `|text|` if none. */
  function NextCut(text: string, delims: seq<string>): (i: nat)
    ensures i <= |text|
    ensures NoMatchBefore(text, delims, i)
    ensures i < |text| ==> MatchIndex(text[i..], delims).Some?
    decreases |text|
  {
    if |text| == 0 then 0
    else if MatchIndex(text, delims).Some? then 0
    else
      var i := 1 + NextCut(text[1..], delims);
      assert forall j :: 1 <= j <= |text| ==> text[1..][j - 1..] == text[j..];
      i
  }

  /** The tokens between cuts, and the delimiter text matched at each cut. */
  datatype Pieces = Pieces(tokens: seq<string>, seps: seq<string>)

  /** Interleaves tokens with separators. `Join` undoes `Split` on every text;
      `Split` undoes `Join` only on leftmost-first decompositions. */
  function Join(tokens: seq<string>, seps: seq<string>): string
    requires |tokens| == |seps| + 1
    decreases |seps|
  {
    if |seps| == 0 then tokens[0]
    else tokens[0] + seps[0] + Join(tokens[1..], seps[1..])
  }

  /** Splits `text` on the ordered list of literal delimiters. There is always
      one more token than separators; consecutive, leading or trailing
      delimiters give empty tokens. */
  function Split(text: string, delims: seq<string>): (p: Pieces)
    requires ValidDelimiters(delims)
    ensures |p.tokens| == |p.seps| + 1
    ensures forall k :: 0 <= k < |p.seps| ==> p.seps[k] in delims
    ensures Join(p.tokens, p.seps) == text
    decreases |text|
  {
    var i := NextCut(text, delims);
    if i == |text| then Pieces([text], [])
    else
      var d := delims[MatchIndex(text[i..], delims).value];
      var rest := Split(text[i + |d|..], delims);
      assert text == text[..i] + d + text[i + |d|..];
      Pieces([text[..i]] + rest.tokens, [d] + rest.seps)
  }

  /** The declarative reading of a leftmost-first split: every token is free
      of match positions up to its end, and every separator is the delimiter
      the alternation picks where it stands. */
  ghost predicate LeftmostFirst(delims: seq<string>, tokens: seq<string>, seps: seq<string>)
    requires |tokens| == |seps| + 1
  {
    && (forall k :: 0 <= k < |tokens| ==>
          |tokens[k]| <= |Join(tokens[k..], seps[k..])| &&
          NoMatchBefore(Join(tokens[k..], seps[k..]), delims, |tokens[k]|))
    && (forall k :: 0 <= k < |seps| ==>
          MatchesFirst(seps[k] + Join(tokens[k + 1..], seps[k + 1..]), delims, seps[k]))
  }

  /** `NextCut` is the least cut position: any position with no match before
      it and a match at it (or the end of the text) is the one it returns. */
  lemma NextCutIsLeast(text: string, delims: seq<string>, i: nat)
    requires i <= |text|
    requires NoMatchBefore(text, delims, i)
    requires i < |text| ==> MatchIndex(text[i..], delims).Some?
    ensures NextCut(text, delims) == i
  {
  }

  /** The conditions `LeftmostFirst` places on the first token and separator. */
  ghost predicate HeadIsLeftmostFirst(delims: seq<string>, tokens: seq<string>, seps: seq<string>)
    requires |tokens| == |seps| + 1 && |seps| > 0
  {
    && |tokens[0]| <= |Join(tokens, seps)|
    && NoMatchBefore(Join(tokens, seps), delims, |tokens[0]|)
    && MatchesFirst(seps[0] + Join(tokens[1..], seps[1..]), delims, seps[0])
  }

  /** `LeftmostFirst` peels off one token and separator at a time. */
  lemma LeftmostFirstCons(delims: seq<string>, tokens: seq<string>, seps: seq<string>)
    requires |tokens| == |seps| + 1 && |seps| > 0
    ensures LeftmostFirst(delims, tokens, seps) <==>
      HeadIsLeftmostFirst(delims, tokens, seps) && LeftmostFirst(delims, tokens[1..], seps[1..])
  {
    assert tokens[0..] == tokens && seps[0..] == seps;
    forall k | 1 <= k < |tokens|
      ensures tokens[1..][k - 1..] == tokens[k..] && seps[1..][k - 1..] == seps[k..]
    {
    }
  }

  /** Where the text has a match, `Split` cuts before the first one, and its
      first token and separator meet the leftmost-first conditions. */
  lemma SplitHead(text: string, delims: seq<string>, i: nat, d: string)
    requires ValidDelimiters(delims)
    requires i == NextCut(text, delims) && i < |text|
    requires d == delims[MatchIndex(text[i..], delims).value]
    ensures Split(text, delims).tokens == [text[..i]] + Split(text[i + |d|..], delims).tokens
    ensures Split(text, delims).seps == [d] + Split(text[i + |d|..], delims).seps
    ensures HeadIsLeftmostFirst(delims, Split(text, delims).tokens, Split(text, delims).seps)
  {
    var p := Split(text, delims);
    var rest := Split(text[i + |d|..], delims);
    assert p.tokens[1..] == rest.tokens && p.seps[1..] == rest.seps;
    assert text[i..] == d + Join(rest.tokens, rest.seps);
  }

  /** What `Split` returns is a leftmost-first decomposition. */
  lemma {:induction false} SplitIsLeftmostFirst(text: string, delims: seq<string>)
    requires ValidDelimiters(delims)
    ensures LeftmostFirst(delims, Split(text, delims).tokens, Split(text, delims).seps)
    decreases |text|
  {
    var p := Split(text, delims);
    var i := NextCut(text, delims);
    if i == |text| {
      assert p.tokens[0..] == p.tokens && p.seps[0..] == p.seps;
    } else {
      var d := delims[MatchIndex(text[i..], delims).value];
      var tail := text[i + |d|..];
      SplitHead(text, delims, i, d);
      SplitIsLeftmostFirst(tail, delims);
      assert p.tokens[1..] == Split(tail, delims).tokens && p.seps[1..] == Split(tail, delims).seps;
      LeftmostFirstCons(delims, p.tokens, p.seps);
    }
  }

  /** A single token with no match position is split into itself. */
  lemma LastTokenIsSplit(delims: seq<string>, tokens: seq<string>, seps: seq<string>)
    requires ValidDelimiters(delims)
    requires |tokens| == 1 && |seps| == 0
    requires LeftmostFirst(delims, tokens, seps)
    ensures Split(Join(tokens, seps), delims) == Pieces(tokens, seps)
  {
    var t := tokens[0];
    assert tokens[0..] == tokens && seps[0..] == seps;
    assert Join(tokens, seps) == t;
    assert NoMatchBefore(t, delims, |t|);
    NextCutIsLeast(t, delims, |t|);
    assert tokens == [t] && seps == [];
  }

  /** A text whose first match sits right after `t` and picks `d` splits
      into `t`, `d` and the split of what follows. */
  lemma SplitStep(delims: seq<string>, t: string, d: string, tail: string)
    requires ValidDelimiters(delims)
    requires NoMatchBefore(t + d + tail, delims, |t|)
    requires MatchesFirst(d + tail, delims, d)
    ensures Split(t + d + tail, delims) ==
      Pieces([t] + Split(tail, delims).tokens, [d] + Split(tail, delims).seps)
  {
    var text := t + d + tail;
    assert text[|t|..] == d + tail;
    NextCutIsLeast(text, delims, |t|);
    assert text[..|t|] == t;
    assert text[|t| + |d|..] == tail;
  }

  /** Any leftmost-first decomposition of a text is the one `Split` returns. */
  lemma {:induction false} LeftmostFirstIsSplit(delims: seq<string>, tokens: seq<string>, seps: seq<string>)
    requires ValidDelimiters(delims)
    requires |tokens| == |seps| + 1
    requires LeftmostFirst(delims, tokens, seps)
    ensures Split(Join(tokens, seps), delims) == Pieces(tokens, seps)
    decreases |seps|
  {
    if |seps| == 0 {
      LastTokenIsSplit(delims, tokens, seps);
    } else {
      var t, d := tokens[0], seps[0];
      var tail := Join(tokens[1..], seps[1..]);
      LeftmostFirstCons(delims, tokens, seps);
      assert Join(tokens, seps) == t + d + tail;
      SplitStep(delims, t, d, tail);
      LeftmostFirstIsSplit(delims, tokens[1..], seps[1..]);
      assert [t] + tokens[1..] == tokens && [d] + seps[1..] == seps;
    }
  }

  /** A split is exactly a leftmost-first decomposition that joins back to
      the text: `Split` has one and only one possible answer. */
  lemma SplitIffLeftmostFirst(text: string, delims: seq<string>, tokens: seq<string>, seps: seq<string>)
    requires ValidDelimiters(delims)
    ensures Split(text, delims) == Pieces(tokens, seps) <==>
      && |tokens| == |seps| + 1
      && Join(tokens, seps) == text
      && LeftmostFirst(delims, tokens, seps)
  {
    SplitIsLeftmostFirst(text, delims);
    if |tokens| == |seps| + 1 && Join(tokens, seps) == text && LeftmostFirst(delims, tokens, seps) {
      LeftmostFirstIsSplit(delims, tokens, seps);
    }
  }

  /** The literal `d` does not occur anywhere inside `t`. */
  predicate FreeOf(t: string, d: string) {
    forall j :: 0 <= j <= |t| - |d| ==> !StartsWith(t[j..], d)
  }

  /** A joined text begins with its first token. */
  lemma JoinBeginsWithFirst(tokens: seq<string>, seps: seq<string>)
    requires |tokens| == |seps| + 1
    ensures StartsWith(Join(tokens, seps), tokens[0])
  {
  }

  /** Delimiters are matched as literals: no token of a split contains any
      of the delimiters. */
  lemma SplitTokensHoldNoDelimiter(text: string, delims: seq<string>)
    requires ValidDelimiters(delims)
    ensures forall k, m :: 0 <= k < |Split(text, delims).tokens| && 0 <= m < |delims| ==>
      FreeOf(Split(text, delims).tokens[k], delims[m])
  {
    var p := Split(text, delims);
    SplitIsLeftmostFirst(text, delims);
    forall k, m | 0 <= k < |p.tokens| && 0 <= m < |delims|
      ensures FreeOf(p.tokens[k], delims[m])
    {
      JoinBeginsWithFirst(p.tokens[k..], p.seps[k..]);
      PrefixWithoutMatchIsFree(Join(p.tokens[k..], p.seps[k..]), p.tokens[k], delims, m);
    }
  }

  /** A prefix with no match position before its end contains no delimiter. */
  lemma PrefixWithoutMatchIsFree(whole: string, t: string, delims: seq<string>, m: nat)
    requires ValidDelimiters(delims)
    requires StartsWith(whole, t)
    requires NoMatchBefore(whole, delims, |t|)
    requires m < |delims|
    ensures FreeOf(t, delims[m])
  {
    var d := delims[m];
    assert whole[..|t|] == t;
    forall j | 0 <= j <= |t| - |d|
      ensures !StartsWith(t[j..], d)
    {
      assert forall x :: 0 <= x < |d| ==> whole[j..][x] == t[j..][x];
      assert whole[j..][..|d|] == t[j..][..|d|];
      assert MatchIndex(whole[j..], delims).None?;
    }
  }

  /** No two delimiters begin with the same character. */
  predicate DistinctLeads(delims: seq<string>) {
    && ValidDelimiters(delims)
    && forall a, b :: 0 <= a < b < |delims| ==> delims[a][0] != delims[b][0]
  }

  /** No character of `t` is the first character of a delimiter. */
  predicate AvoidsLeads(t: string, delims: seq<string>)
    requires ValidDelimiters(delims)
  {
    forall j, m :: 0 <= j < |t| && 0 <= m < |delims| ==> t[j] != delims[m][0]
  }

  /** With distinct leading characters, a text that begins with a delimiter
      is matched by that delimiter. */
  lemma LeadPicksDelimiter(s: string, delims: seq<string>, m: nat)
    requires DistinctLeads(delims)
    requires m < |delims| && StartsWith(s, delims[m])
    ensures MatchesFirst(s, delims, delims[m])
  {
    var a := MatchIndex(s, delims).value;
    assert s[0] == delims[m][0] && s[0] == delims[a][0];
  }

  /** Joining tokens that contain no delimiter character with delimiters
      that begin with distinct characters, then splitting, gives back the
      same tokens and separators. */
  lemma SplitOfJoin(delims: seq<string>, tokens: seq<string>, seps: seq<string>)
    requires DistinctLeads(delims)
    requires |tokens| == |seps| + 1
    requires forall k :: 0 <= k < |tokens| ==> AvoidsLeads(tokens[k], delims)
    requires forall k :: 0 <= k < |seps| ==> seps[k] in delims
    ensures Split(Join(tokens, seps), delims) == Pieces(tokens, seps)
  {
    forall k | 0 <= k < |tokens|
      ensures |tokens[k]| <= |Join(tokens[k..], seps[k..])|
      ensures NoMatchBefore(Join(tokens[k..], seps[k..]), delims, |tokens[k]|)
    {
      var whole := Join(tokens[k..], seps[k..]);
      JoinBeginsWithFirst(tokens[k..], seps[k..]);
      forall j | 0 <= j < |tokens[k]|
        ensures MatchIndex(whole[j..], delims).None?
      {
        assert whole[j..][0] == tokens[k][j];
        assert forall m :: 0 <= m < |delims| ==> !StartsWith(whole[j..], delims[m]);
      }
    }
    forall k | 0 <= k < |seps|
      ensures MatchesFirst(seps[k] + Join(tokens[k + 1..], seps[k + 1..]), delims, seps[k])
    {
      var m :| 0 <= m < |delims| && delims[m] == seps[k];
      var s := seps[k] + Join(tokens[k + 1..], seps[k + 1..]);
      assert s[..|seps[k]|] == seps[k];
      LeadPicksDelimiter(s, delims, m);
    }
    LeftmostFirstIsSplit(delims, tokens, seps);
  }

  /** The alternation matches the first delimiter in list order that the text
      begins with, and nothing when it begins with none. */
  lemma MatchIndexIsFirst(text: string, delims: seq<string>, i: nat)
    requires i < |delims| && StartsWith(text, delims[i])
    requires forall j :: 0 <= j < i ==> !StartsWith(text, delims[j])
    ensures MatchIndex(text, delims) == Some(i)
  {
  }

  /** A text that begins with `c` begins with every prefix of `c`. */
  lemma StartsWithPrefix(text: string, c: string, p: string)
    requires StartsWith(text, c) && StartsWith(c, p)
    ensures StartsWith(text, p)
  {
    assert text[..|p|] == text[..|c|][..|p|];
  }

  /** An alternative that begins with an earlier alternative never matches
      first: wherever it occurs, the earlier one occurs too. */
  lemma MatchIndexIgnoresShadowed(text: string, delims: seq<string>, c: string, m: nat)
    requires m < |delims| && StartsWith(c, delims[m])
    ensures MatchIndex(text, delims + [c]) == MatchIndex(text, delims)
  {
    var all := delims + [c];
    match MatchIndex(text, delims)
    case Some(v) =>
      MatchIndexIsFirst(text, all, v);
    case None =>
      if StartsWith(text, c) {
        StartsWithPrefix(text, c, delims[m]);
      }
      assert forall j :: 0 <= j < |all| ==> !StartsWith(text, all[j]);
  }

  /** The leftmost cut does not move when a shadowed alternative is added. */
  lemma {:induction false} NextCutIgnoresShadowed(text: string, delims: seq<string>, c: string, m: nat)
    requires m < |delims| && StartsWith(c, delims[m])
    ensures NextCut(text, delims + [c]) == NextCut(text, delims)
    decreases |text|
  {
    MatchIndexIgnoresShadowed(text, delims, c, m);
    if |text| > 0 {
      NextCutIgnoresShadowed(text[1..], delims, c, m);
    }
  }

  /** Adding a delimiter that begins with one already in the list changes no
      split: the earlier delimiter always matches first. */
  lemma {:induction false} SplitIgnoresShadowed(text: string, delims: seq<string>, c: string, m: nat)
    requires ValidDelimiters(delims) && c != []
    requires m < |delims| && StartsWith(c, delims[m])
    ensures ValidDelimiters(delims + [c])
    ensures Split(text, delims + [c]) == Split(text, delims)
    decreases |text|
  {
    var all := delims + [c];
    assert ValidDelimiters(all);
    var i := NextCut(text, delims);
    NextCutIgnoresShadowed(text, delims, c, m);
    if i < |text| {
      MatchIndexIgnoresShadowed(text[i..], delims, c, m);
      var d := delims[MatchIndex(text[i..], delims).value];
      assert d == all[MatchIndex(text[i..], all).value];
      SplitIgnoresShadowed(text[i + |d|..], delims, c, m);
    }
  }

  /** A split has at most one more token than the text has characters. */
  lemma TokenCount(text: string, delims: seq<string>)
    requires ValidDelimiters(delims)
    ensures |Split(text, delims).tokens| <= |text| + 1
  {
    var p := Split(text, delims);
    JoinLength(p.tokens, p.seps, delims);
  }

  /** Each separator taken from non-empty delimiters adds at least one
      character to a joined text. */
  lemma {:induction false} JoinLength(tokens: seq<string>, seps: seq<string>, delims: seq<string>)
    requires ValidDelimiters(delims)
    requires |tokens| == |seps| + 1
    requires forall k :: 0 <= k < |seps| ==> seps[k] in delims
    ensures |Join(tokens, seps)| >= |seps|
    decreases |seps|
  {
    if |seps| > 0 {
      JoinLength(tokens[1..], seps[1..], delims);
    }
  }
}

=== FILE: integers.dfy ===
/** Reading a token as a base-10 integer, the calculator's use of `int()`.

    The accepted form is an optional minus sign followed by one or more ASCII
    digits; leading zeros are allowed and "-0" reads as zero. `Show` writes an
    integer back out in canonical form: `ParseInt` undoes `Show` on every
    integer, and `Show` undoes `ParseInt` on canonical literals only ("007"
    reads as 7 and is written back as "7"). */
module Integers {
  import opened Wrappers

  predicate IsDigit(c: char) {
    '0' <= c <= '9'
  }

  predicate AllDigits(s: string) {
    forall i :: 0 <= i < |s| ==> IsDigit(s[i])
  }

  function DigitValue(c: char): (d: nat)
    requires IsDigit(c)
    ensures d < 10
  {
    c as int - '0' as int
  }

  function DigitChar(d: nat): (c: char)
    requires d < 10
    ensures IsDigit(c) && DigitValue(c) == d
  {
    ('0' as int + d) as char
  }

  /** The value of a digit string, most significant digit first. */
  function DigitsValue(s: string): nat
    requires AllDigits(s)
    decreases |s|
  {
    if |s| == 0 then 0 else 10 * DigitsValue(s[..|s| - 1]) + DigitValue(s[|s| - 1])
  }

  /** An optional minus sign followed by at least one digit. */
  predicate IsIntegerLiteral(s: string) {
    || (|s| > 0 && AllDigits(s))
    || (|s| > 1 && s[0] == '-' && AllDigits(s[1..]))
  }

  /** Reads `s` as an integer, or `None` when it is not an integer literal. */
  function ParseInt(s: string): (r: Option<int>)
    ensures r.Some? <==> IsIntegerLiteral(s)
    ensures r.Some? && r.value < 0 ==> s[0] == '-'
  {
    if |s| > 0 && AllDigits(s) then Some(DigitsValue(s))
    else if |s| > 1 && s[0] == '-' && AllDigits(s[1..]) then Some(-(DigitsValue(s[1..]) as int))
    else None
  }

  /** The canonical decimal digits of a natural number. */
  function ShowNat(n: nat): (s: string)
    ensures |s| > 0 && AllDigits(s)
    decreases n
  {
    if n < 10 then [DigitChar(n)] else ShowNat(n / 10) + [DigitChar(n % 10)]
  }

  /** The canonical decimal form of an integer. */
  function Show(n: int): string {
    if n < 0 then "-" + ShowNat(-n) else ShowNat(n)
  }

  /** No leading zero on a longer digit string, and no "-0". */
  predicate IsCanonical(s: string) {
    || (|s| > 0 && AllDigits(s) && (s[0] != '0' || |s| == 1))
    || (|s| > 1 && s[0] == '-' && AllDigits(s[1..]) && s[1] != '0')
  }

  lemma {:induction false} DigitsValueOfShowNat(n: nat)
    ensures DigitsValue(ShowNat(n)) == n
    decreases n
  {
    if n >= 10 {
      var s := ShowNat(n);
      DigitsValueOfShowNat(n / 10);
      assert s[..|s| - 1] == ShowNat(n / 10);
    }
  }

  /** Writing an integer out and reading it back gives the same integer. */
  lemma ParseShow(n: int)
    ensures ParseInt(Show(n)) == Some(n)
    ensures IsCanonical(Show(n))
  {
    var m := if n < 0 then -n else n;
    DigitsValueOfShowNat(m);
    ShowNatLead(m);
    if n < 0 {
      assert Show(n)[1..] == ShowNat(m);
    }
  }

  /** Only zero is written with a leading '0'. */
  lemma {:induction false} ShowNatLead(n: nat)
    ensures ShowNat(n)[0] == '0' <==> n == 0
    ensures n > 0 || ShowNat(n) == "0"
    decreases n
  {
    if n >= 10 {
      ShowNatLead(n / 10);
    }
  }

  /** A digit string that does not begin with a zero has a positive value. */
  lemma {:induction false} NonZeroLeadIsPositive(s: string)
    requires AllDigits(s) && |s| > 0 && s[0] != '0'
    ensures DigitsValue(s) > 0
    decreases |s|
  {
    if |s| > 1 {
      NonZeroLeadIsPositive(s[..|s| - 1]);
    }
  }

  /** A canonical digit string is the canonical form of its value. */
  lemma {:induction false} ShowNatOfDigits(s: string)
    requires |s| > 0 && AllDigits(s) && (s[0] != '0' || |s| == 1)
    ensures ShowNat(DigitsValue(s)) == s
    decreases |s|
  {
    if |s| > 1 {
      var front := s[..|s| - 1];
      ShowNatOfDigits(front);
      NonZeroLeadIsPositive(front);
      var n := DigitsValue(s);
      assert n / 10 == DigitsValue(front) && n % 10 == DigitValue(s[|s| - 1]);
      assert s == front + [s[|s| - 1]];
    }
  }

  /** Reading a canonical literal and writing the value back out gives the
      same text: on canonical literals `Show` and `ParseInt` are inverse. */
  lemma ShowParse(s: string)
    requires IsCanonical(s)
    ensures ParseInt(s).Some? && Show(ParseInt(s).value) == s
  {
    if |s| > 0 && AllDigits(s) {
      ShowNatOfDigits(s);
    } else {
      var digits := s[1..];
      ShowNatOfDigits(digits);
      NonZeroLeadIsPositive(digits);
      assert s == "-" + digits;
    }
  }
}

=== FILE: string_calculator.dfy ===
/** The string calculator: `add` reads an optional custom-delimiter header,
    splits the rest on the active delimiters, validates the tokens left to
    right and sums the values up to the limit.

    The calculator object holds only its default delimiter list and hands out
    a copy on every call, so each call is a pure function of its input; here
    the defaults are a constant and `Add` is a function. */
module StringCalculator {
  import opened Wrappers
  import opened Delimit
  import opened Integers

  /** The errors `add` raises. `NonInteger` and `Negative` are the two
      validation errors; `HeaderWithoutNewline` is the index error raised when
      a `//` header has no newline after it. */
  datatype Error = NonInteger | Negative | HeaderWithoutNewline

  /** The text each error carries; the three texts are distinct, so the text
      alone tells which error was raised. */
  function Message(e: Error): (m: string)
    ensures m == "Non integer numbers are not allowed" <==> e == NonInteger
    ensures m == "Negative numbers are not allowed" <==> e == Negative
    ensures m == "list index out of range" <==> e == HeaderWithoutNewline
  {
    match e
    case NonInteger => "Non integer numbers are not allowed"
    case Negative => "Negative numbers are not allowed"
    case HeaderWithoutNewline => "list index out of range"
  }

  /** The delimiters every call starts from: a comma and a space. */
  const DefaultDelimiters: seq<string> := [",", " "]

  /** The largest value that is added; larger values are dropped silently. */
  const Limit: nat := 100

  /** The marker that opens a custom-delimiter header. */
  const HeaderMarker: string := "//"

  /** The position of the first newline in `s`, if any. */
  function FirstNewline(s: string): (r: Option<nat>)
    ensures r.Some? ==> r.value < |s| && s[r.value] == '\n'
    ensures r.Some? ==> forall j :: 0 <= j < r.value ==> s[j] != '\n'
    ensures r.None? <==> '\n' !in s
    decreases |s|
  {
    if |s| == 0 then None
    else if s[0] == '\n' then Some(0)
    else
      match FirstNewline(s[1..])
      case None => None
      case Some(k) => Some(k + 1)
  }

  /** The delimiters in force for one call and the text to tokenize. */
  datatype Request = Request(delims: seq<string>, body: string)

  /** Reads the optional `//<delimiter>\n` header. With the marker, the text
      between offset 2 and the first newline is appended to the defaults and
      only the text after that newline is tokenized; without it, the defaults
      apply to the whole input. */
  function ReadHeader(s: string): (r: Result<Request, Error>)
    ensures r.Failure? <==> StartsWith(s, HeaderMarker) && '\n' !in s
    ensures r.Failure? ==> r.error == HeaderWithoutNewline
    ensures !StartsWith(s, HeaderMarker) ==> r == Success(Request(DefaultDelimiters, s))
    ensures r.Success? ==> |r.value.delims| >= 2 && r.value.delims[..2] == DefaultDelimiters
    ensures r.Success? && StartsWith(s, HeaderMarker) ==>
      && |r.value.delims| == 3
      && '\n' !in r.value.delims[2]
      && s == HeaderMarker + r.value.delims[2] + "\n" + r.value.body
  {
    if StartsWith(s, HeaderMarker) then
      match FirstNewline(s)
      case None => Failure(HeaderWithoutNewline)
      case Some(k) =>
        var custom := s[2..k];
        assert s == HeaderMarker + custom + "\n" + s[k + 1..];
        Success(Request(DefaultDelimiters + [custom], s[k + 1..]))
    else
      Success(Request(DefaultDelimiters, s))
  }

  /** The header, if any, names a non-empty delimiter. An empty custom
      delimiter would put an empty alternative in the split pattern, which
      this model does not cover. */
  predicate CustomDelimiterNonEmpty(s: string) {
    !(StartsWith(s, HeaderMarker) && |s| > 2 && s[2] == '\n')
  }

  /** What one token does to the running total. */
  datatype Verdict = Skip | Keep(value: nat) | Reject(error: Error)

  /** Empty tokens are skipped; a token that does not read as an integer is
      rejected as a non-integer, one that reads as a negative number as a
      negative; any other token is kept with its value. */
  function Classify(token: string): (v: Verdict)
    ensures v.Skip? <==> token == []
    ensures v.Reject? ==> v.error != HeaderWithoutNewline
    ensures v == Reject(NonInteger) <==> token != [] && !IsIntegerLiteral(token)
    ensures v.Keep? <==> ParseInt(token).Some? && ParseInt(token).value >= 0
    ensures v.Keep? ==> Some(v.value as int) == ParseInt(token)
  {
    if token == [] then Skip
    else
      match ParseInt(token)
      case None => Reject(NonInteger)
      case Some(n) => if n < 0 then Reject(Negative) else Keep(n)
  }

  predicate Rejected(token: string) {
    Classify(token).Reject?
  }

  /** The loop over the tokens: starting from `total`, each token in turn is
      skipped, added (when at most `Limit`), dropped (when above it) or
      rejected, and the first rejection ends the loop. */
  function Total(tokens: seq<string>, total: nat): (r: Result<nat, Error>)
    ensures r.Success? ==> total <= r.value <= total + Limit * |tokens|
    ensures r.Failure? ==> r.error in {NonInteger, Negative}
    decreases |tokens|
  {
    if |tokens| == 0 then Success(total)
    else
      match Classify(tokens[0])
      case Reject(e) => Failure(e)
      case Skip => Total(tokens[1..], total)
      case Keep(n) => Total(tokens[1..], if n <= Limit then total + n else total)
  }

  /** `add`: a missing or empty input sums to zero; otherwise the header is
      read, the body split and the tokens totalled from zero. */
  function Add(input: Option<string>): (r: Result<nat, Error>)
    requires input.Some? ==> CustomDelimiterNonEmpty(input.value)
    ensures input == None || input == Some("") ==> r == Success(0)
    ensures r == Failure(HeaderWithoutNewline) <==>
      input.Some? && StartsWith(input.value, HeaderMarker) && '\n' !in input.value
    ensures r.Success? && input.Some? ==> r.value <= Limit * (|input.value| + 1)
  {
    match input
    case None => Success(0)
    case Some(s) =>
      if |s| == 0 then Success(0)
      else
        match ReadHeader(s)
        case Failure(e) => Failure(e)
        case Success(req) =>
          assert ValidDelimiters(req.delims);
          var tokens := Split(req.body, req.delims).tokens;
          TokenCount(req.body, req.delims);
          Total(tokens, 0)
  }
}

=== FILE: wrappers.dfy ===
/** Option and Result: the absent value and the raised error of the calculator,
    written as plain datatypes. */
module Wrappers {

  /** A value that may be missing, such as the calculator's optional input. */
  datatype Option<+T> = None | Some(value: T)

  /** The outcome of a computation that either returns a value or raises an error. */
  datatype Result<+R, +E> = Success(value: R) | Failure(error: E)
}
